=== FILE: README.md ===
# NutriFit checkout verification and view logic, in Dafny

This project models the parts of the NutriFit web application that hold logic of their own:

- **`verify-session`** (`verify_session.dfy`, `verify_session_properties.dfy`). This is the edge function that runs after a Stripe checkout. It takes a checkout session id and asks the payment provider whether the session is paid. It reads the plan metadata, and on the first visit of a paid session it records one active subscription for the purchaser and fires a plan-generation request. The handler is a pure function `Handle(request, env, store)`. Its result holds the HTTP response (status, body variant, headers), the new store, the plan-generation notifications it emitted and the provider lookups it made. Four things are inputs:
  - the provider lookup, as an oracle function from session id to retrieved session or thrown error;
  - the insert's result, as an oracle value: the new row id or an error message;
  - the database, as an immutable `Store` value: `subscriptions` keyed by `stripe_session_id`, `profiles` as email to `user_id`, and the set of subscription ids that some `user_plans` row references;
  - the clock, as its two readings (the handler calls `new Date()` once for the start date and once for the date the end is computed from), and the calendar arithmetic.
- **The Success page** (`success_page.dfy`). It maps the outcome of invoking `verify-session` to the flags `verifying`, `verified`, `error` and `needsAccount`, and chooses between three screens: loader, error and success. A whole visit is the mount followed by a sequence of events: clicks on the retry button, and answers from outstanding verification calls. The page keeps no guard against a second click while a call is outstanding, so the model counts the calls in flight (see "## Findings").
- **The landing Header** (`header.dfy`). It derives its user record from an auth session and computes the avatar initials and the display name. It also keeps a two-field state (mobile menu open, user) that its handlers update.
- **The plan-generation loader** (`plan_generating_loader.dfy`). It has a five-step table, a cyclic step counter advanced by an interval, and an active/done/pending classification for each step.
- **JavaScript string semantics** (`js_text.dfy`). These are the few the code relies on: truthiness of optional strings, `||` defaulting, `split(" ")`, `join`, ASCII `toUpperCase` and `slice(0, n)`.
- **The page calling the handler** (`checkout_flow.dfy`). It connects the handler's status-200 replies to the screen the page ends on.

Two behaviours of the handler's code are worth stating up front:

- The handler checks the metadata (email and plan name) **before** it looks for an existing subscription for the session. A recorded session whose metadata lacks either field therefore gets a 500, not `alreadyProcessed`.
- An unrecognised duration label leaves the end date at the second clock reading. The stored window is then only the gap between the two `new Date()` calls (index.ts:104-105). The model keeps this as the `Unrecognized` case of `ParseDuration`, and `WindowNonEmptyIffRecognised` states when it happens.

## Model

| member | source | states |
|---|---|---|
| VerifySession.Handle | supabase/functions/verify-session/index.ts:15-171 | Preflight (OPTIONS) returns 200 with no body and only the CORS headers, with no effect; every other reply carries the JSON headers. Status is 500 exactly for thrown errors. At most one provider lookup happens. A run either leaves the store unchanged or adds exactly one subscription under a new session key and emits exactly one matching notification, and the latter happens exactly when the reply is `Activated`. Profiles and plans are never written. The key-matches-row invariant is preserved |
| VerifySession.VerifyPaid | supabase/functions/verify-session/index.ts:38-162 | Once a session id is in hand, exactly one provider lookup (for that id) is made. The same write discipline holds as for `Handle`, and `Activated` is always status 200 |
| VerifySession.Serialize | supabase/functions/verify-session/index.ts:42-169 | The JSON reply has `success: true` exactly for already-processed and activated replies, and `success: false` exactly for payment-incomplete and needs-account replies. An already-processed reply writes `alreadyProcessed: true` with the body's subscription id and `planExists`. An activated reply writes the body's subscription and user ids. Faults and needs-account replies carry the body's message, and payment-incomplete carries "Payment not completed". Each key appears only in the cases that write it |
| VerifySession.ParseDuration | supabase/functions/verify-session/index.ts:106-112 | Each of the three labels "7 días", "1 mes" and "3 meses" selects its own duration, and nothing else selects it |
| VerifySession.EndDate | supabase/functions/verify-session/index.ts:103-112 | An unrecognised duration leaves the end at the clock reading it starts from. A recognised one gives one of the three calendar moves from that reading; `WindowByLabel` says which |
| VerifySession.NewSubscription | supabase/functions/verify-session/index.ts:117-126 | The inserted row has the new id, the user, status "active", the session id, the non-empty plan name, a plan id that is never empty (`planId`, else "unknown"), the add-on flag exactly when the metadata says "true", the first clock reading as start and the window end from the second |
| VerifySession.Thrown | supabase/functions/verify-session/index.ts:163-169 | Every caught error replies 500 under JSON headers with the JSON `{ error: message }` and no other key. It meets the handler's write discipline by writing nothing and notifying no one. `MissingSessionId`, `MissingMetadataPrecedesIdempotency` and `InsertFailure` show which messages reach it |
| VerifySessionProperties.Preflight | supabase/functions/verify-session/index.ts:16-18 | OPTIONS returns an empty body with CORS headers. There is no store change, no notification and no provider lookup |
| VerifySessionProperties.MissingSessionId | supabase/functions/verify-session/index.ts:27-29 | A missing or empty `sessionId` yields 500 `{error: "sessionId is required"}`. There is no lookup, no write and no notification |
| VerifySessionProperties.UnpaidSession | supabase/functions/verify-session/index.ts:42-47 | A session whose status is not "paid" yields 400 `{success: false, error: "Payment not completed"}`, and the store is unchanged |
| VerifySessionProperties.MissingMetadataPrecedesIdempotency | supabase/functions/verify-session/index.ts:49-61 | A paid session lacking email or plan name yields 500 "Missing metadata in checkout session", whatever the store already records for it |
| VerifySessionProperties.AlreadyProcessedIsNoOp | supabase/functions/verify-session/index.ts:55-80 | A recorded session yields 200 `alreadyProcessed` with the existing id. `planExists` is true exactly when a plan references that id. The store is unchanged and no notification is sent |
| VerifySessionProperties.NoProfileNeedsAccount | supabase/functions/verify-session/index.ts:83-99 | When no profile has the metadata email, the reply is 200 with `success: false` and `needsAccount: true`. Nothing is inserted or notified |
| VerifySessionProperties.ActivationRecord | supabase/functions/verify-session/index.ts:114-162 | A new activation inserts exactly one row, under the session id, and keeps every other row. The row has the profile's user, status "active", `planId` or "unknown", the plan name, add-on exactly when the flag is "true", start = the first clock reading, the end computed from the second, and the session id. It emits exactly one notification (user, new id) and replies 200 with both ids |
| VerifySessionProperties.InsertFailure | supabase/functions/verify-session/index.ts:130-133 | A failed insert yields 500 "Failed to create subscription: " followed by the database message, with no notification |
| VerifySessionProperties.SecondRunIsAlreadyProcessed | supabase/functions/verify-session/index.ts:54-80 | After an activation, the same request against the new store returns `alreadyProcessed` with the same subscription id, for any insert outcome and time. It writes nothing and notifies no one |
| VerifySessionProperties.WindowByLabel | supabase/functions/verify-session/index.ts:104-112 | From the second clock reading, the end is 7 days, 1 month or 3 months later according to the label. For any other or absent label the end is that reading itself |
| VerifySessionProperties.WindowNonEmptyIffRecognised | supabase/functions/verify-session/index.ts:104-112 | With forward-moving calendar arithmetic and a second clock reading no earlier than the first, the end is never before the start. It stays at the second reading exactly when the label is unrecognised, and a recognised label ends strictly after the start |
| VerifySessionProperties.StoredWindowsAreOrdered | supabase/functions/verify-session/index.ts:103-126 | Under the same calendar and clock conditions, if every stored subscription ends no earlier than it starts, the same holds after any run |
| SuccessPage.Mount | src/pages/Success.tsx:19-26 | A verification call starts exactly when `session_id` is truthy. Otherwise the page is immediately not verifying and verified |
| SuccessPage.Complete | src/pages/Success.tsx:28-50 | Every completion ends verifying. `verified` becomes true only on a successful reply, and `needsAccount` only on a non-success reply that asks for an account. A needs-account reply sets the error to the reply's `error` exactly as given, possibly absent. Any other non-success reply sets it to the reply's truthy `error`, else "Error verificando el pago" (also when `data` is null). An invocation error or an exception sets the support message. A successful reply leaves the error as it was |
| SuccessPage.Render | src/pages/Success.tsx:52-110 | The loader is shown exactly while verifying. The error screen is shown exactly when the page is not verifying, the error is truthy and the payment is not verified, so it never appears once verified. It shows the error. Its title is "Cuenta no encontrada" when an account is needed and "Error en la verificación" otherwise, and the retry button is offered exactly when one is not |
| SuccessPage.Open | src/pages/Success.tsx:19-26 | After mounting, exactly one verification call is outstanding when `session_id` is truthy and none otherwise |
| SuccessPage.Answer | src/pages/Success.tsx:28-50 | An outstanding call's answer applies `Complete` to whatever state the page is in by then, and retires one outstanding call. With none outstanding, nothing happens. An answer takes the loader away, and it never clears `verified` or `needsAccount`. What this means over a whole visit is stated by `VisitBasics` (as written) and `GuardedVisitSettles` (guarded) |
| SuccessPage.Step | src/pages/Success.tsx:93 | As written, a click on the shown retry button, with a session id, starts one more call and changes no state, even with a call outstanding. Any other click changes nothing. An answer is applied by `Answer`, and `verified` is never lost |
| SuccessPage.GuardedStep | src/pages/Success.tsx:93 | The corrected page: a click is ignored while a call is outstanding and otherwise acts as on the page as written, and answers are applied by `Answer`. A click on the offered button starts a call exactly when none is outstanding, so at most one stays outstanding. `GuardedVisitSettles` states the consequence for a whole visit |
| SuccessPage.VisitBasics | src/pages/Success.tsx:19-52 | Over any visit as written, the loader remains only while the first call is outstanding. A visit without `session_id` shows success with no call. Once payment is verified, no later events bring back the error screen |
| SuccessPage.GuardedVisitSettles | src/pages/Success.tsx:36-96 | On the guarded page, at most one call is ever outstanding, and `verified` and `needsAccount` never hold together. Once an account is needed, no later click or answer changes the page |
| SuccessPage.OverlappingRetriesMixScreens | src/pages/Success.tsx:93 | As written, two retry clicks put two calls in flight. A needs-account answer followed by a success leaves `verified` and `needsAccount` both set. A needs-account answer followed by a thrown call shows "Cuenta no encontrada" over the support message with no retry. The guarded page stays on the account screen |
| SuccessPage.SuccessWins | src/pages/Success.tsx:36-37 | A successful reply shows the success screen, whatever error an earlier attempt left |
| SuccessPage.AccountReplyWithoutMessage | src/pages/Success.tsx:38-40 | A needs-account reply without a message sets `needsAccount`, yet the page shows the success screen |
| CheckoutFlow.OkRepliesOnThePage | src/pages/Success.tsx:28-50 | For every status-200 reply from the handler to the page's request, the page shows success exactly for already-processed and activated replies. It shows the account-missing screen with the handler's message and no retry exactly for needs-account replies. With a single call, the guarded page ends the same way |
| Header.DeriveUser | src/components/landing/Header.tsx:37-42 | There is a user exactly when the session has one. Its email is the session email, or "" if absent. `fullName` is `full_name`, else `name`, else absent, and it is never empty |
| Header.Initials | src/components/landing/Header.tsx:67-72 | The result has at most two characters. With no user it is "U". With no full name it is the upper-cased first letter of the email, or "U" when the email is empty. With a full name it is a prefix of the upper-cased first letters of its parts |
| Header.DisplayName | src/components/landing/Header.tsx:74 | The result is the full name when truthy, else the email, and "" without a user |
| Header.InitialsFromWords | src/components/landing/Header.tsx:68-70 | With a full name, the initials are the upper-cased first two word-starting characters. A word starts at a non-space character at the beginning or after a space |
| Header.BlankFullNameHasNoInitials | src/components/landing/Header.tsx:68-70 | A full name made only of spaces gives empty initials. The "U" fallback is not used |
| Header.AvatarMatchesName | src/components/landing/Header.tsx:67-74 | An empty display name goes with the "U" avatar. Without a full name, the avatar is the display name's first letter, upper-cased |
| Header.Step | src/components/landing/Header.tsx:20-199 | Scrolling, mobile links and the mobile logout button close the menu, and the toggle negates it. A logout click leaves the user in place; the user is cleared when the awaited sign-out resumes. An auth change sets the derived user, possibly none. The initial session load sets the user only when there is one. Auth events and the sign-out never move the menu. Only the sign-out and the auth listener remove a signed-in user |
| Header.MobileLogoutClearsLate | src/components/landing/Header.tsx:61-186 | The mobile logout button only closes the menu. A user the auth listener sets before the sign-out resumes is cleared by the late `setUser(null)` |
| Header.ListenerClearsLoadKeeps | src/components/landing/Header.tsx:43-55 | An auth change without a user clears the user. The initial load without a user changes nothing |
| Header.ToggleTwice | src/components/landing/Header.tsx:142 | Toggling the menu twice restores the state |
| Header.AuthEventsKeepMenu | src/components/landing/Header.tsx:35-59 | Any sequence of auth events leaves the menu as it was |
| Header.RunKeepsNonEmptyFullName | src/components/landing/Header.tsx:37-55 | Under any events, a stored full name is never the empty string |
| JsText.FirstTruthy | src/components/landing/Header.tsx:41 | Chained `or` ending in null: the first truthy operand, else absent, and never empty |
| JsText.UpperCaseLaws | src/components/landing/Header.tsx:69 | Upper-casing twice is upper-casing once, and `toUpperCase` then `slice(0, n)` equals `slice(0, n)` then `toUpperCase` |
| JsText.Prefix | src/components/landing/Header.tsx:69 | `slice(0, n)` is a prefix of length min(n, length) |
| JsText.Split | src/components/landing/Header.tsx:69 | `split(" ")` gives at least one part, and no part contains a space |
| JsText.JoinSplit | src/components/landing/Header.tsx:69 | Joining the parts of `split(" ")` with spaces gives back the original string |
| JsText.SplitCount | src/components/landing/Header.tsx:69 | `split(" ")` gives one more part than there are spaces |
| JsText.HeadsOfSplit | src/components/landing/Header.tsx:69 | The first characters of the split parts (`n[0]` of an empty part renders as nothing in `join`) are exactly the word-starting characters, read left to right |
| JsText.NoWordStartsWhenBlank | src/components/landing/Header.tsx:69 | An all-space string has no word starts |
| PlanGeneratingLoader.Tick | src/components/dashboard/PlanGeneratingLoader.tsx:19 | From a step in 0..4, a tick moves to the next step, wraps from the last step to 0, and always lands in 0..4 |
| PlanGeneratingLoader.TicksAdvance | src/components/dashboard/PlanGeneratingLoader.tsx:15-19 | n ticks from k reach (k + n) mod 5 |
| PlanGeneratingLoader.CycleOfFive | src/components/dashboard/PlanGeneratingLoader.tsx:15-19 | Starting at 0, the step after n ticks is n mod 5, and five ticks return to any step |
| PlanGeneratingLoader.Classify | src/components/dashboard/PlanGeneratingLoader.tsx:67-68 | Each step is in exactly one class: active exactly at the active index, done exactly below it, pending exactly above it |
| PlanGeneratingLoader.ExactlyOneActive | src/components/dashboard/PlanGeneratingLoader.tsx:43-45 | Exactly one step is active, and only its icon is shown |
| PlanGeneratingLoader.AfterWrapNothingDone | src/components/dashboard/PlanGeneratingLoader.tsx:74-76 | The tick after the last step gives 0, and then no step is drawn as done |

## Left out

- The Stripe client, the Supabase client and `req.json()` are not modelled as code. They are inputs: a provider oracle, an insert oracle, a `Store` value, and a parsed or unparsable body.
- Environment variables and credentials, `logStep` and `console` output, and the exact CORS header strings. Headers are modelled only as CORS or CORS plus JSON.
- The real `fetch` to `generate-plan` and its `.catch` logging. It is modelled as an emitted notification. The reply does not depend on it, since the model has no input for its outcome.
- Two concurrent invocations for the same session. Duplicate protection under concurrency rests on a database uniqueness constraint that is not part of this model.
- VerifySession.VerifyPaid: the three `maybeSingle` lookups are map and set membership. The source ignores their errors, and a failed query or several matching rows (for example, two `user_plans` rows for one subscription) reads as "no row" there. That case is not modelled.
- VerifySession.Handle: a thrown value that is not an `Error` (reply message "Unknown error") is not modelled. Every thrown error carries a message.
- Date arithmetic is abstract. This covers `setDate` and `setMonth` overflow (January 31 plus one month), time zones and `toISOString`. `Calendar` holds `addDays` and `addMonths` as parameters, and the window lemmas assume only that they move forward.
- `sessionId` and the metadata values are modelled as strings. Non-string JSON values are not modelled.
- Upper-casing is ASCII only. Unicode `toUpperCase` (including mappings that change the length) is not modelled.
- Header.Initials: `n[0]`, `email[0]` and `slice(0, 2)` index UTF-16 code units, but a Dafny `char` is a whole Unicode scalar value. For a name starting with a character outside the Basic Multilingual Plane (an emoji, say), the source takes a lone surrogate where the model takes the whole character.
- Header.Initials: `full_name`, `name` and `email` in the auth user's data are assumed to be strings. A truthy non-string `full_name` or `name` makes `.split` throw in the source; the model has no such case.
- React rendering, JSX and CSS classes, `setTimeout` and `setInterval` timing (100 ms, 3500 ms), `scrollIntoView`, router navigation, and the auth listener's subscribe and unsubscribe plumbing.
- How `supabase.functions.invoke` turns a non-2xx status into `fnError` is library behaviour. `CheckoutFlow.OkRepliesOnThePage` therefore covers only status-200 replies.

## Findings

| source | as written | input that shows it | evidently intended | confidence | as-written member | corrected member |
|---|---|---|---|---|---|---|
| src/pages/Success.tsx:93 | "Reintentar" calls `verifySession` without setting `verifying` or disabling itself, so it stays clickable while a call is outstanding, and each call's setters run whenever it returns | From the retryable error screen, click twice. The first answer asks for an account (message "m") and the second throws. The page shows "Cuenta no encontrada" above the support message with no retry; if the second answer succeeds instead, `verified` and `needsAccount` are both set | At most one verification call at a time, so the account screen is final and the two flags never hold together | medium; not executed | SuccessPage.OverlappingRetriesMixScreens | SuccessPage.GuardedVisitSettles |

=== FILE: checkout_flow.dfy ===
/**
 * The Success page calling `verify-session`: what the page ends up showing
 * for each reply the handler can send with status 200.
 */
module CheckoutFlow {
  import opened Wrappers
  import opened JsText
  import VerifySession
  import SuccessPage

  /** The request the page sends for the `session_id` in its URL. */
  function PageRequest(sid: string): VerifySession.Request {
    VerifySession.Request("POST", VerifySession.Json(Some(sid)))
  }

  /** The page's reading of a JSON reply: flags by truthiness, the message as given. */
  function Read(j: VerifySession.JsonBody): SuccessPage.Payload
  {
    SuccessPage.Payload(j.success == Some(true), j.needsAccount == Some(true), j.error)
  }

  /**
   * Every status-200 reply to the page's request leads to the success screen
   * exactly when the handler reported success, and to the account-missing
   * screen, without a retry button, exactly when it asked for an account.
   * With a single call the page with the guarded retry button behaves the same.
   */
  lemma OkRepliesOnThePage(sid: string, env: VerifySession.Env, store: VerifySession.Store)
    requires sid != ""
    requires VerifySession.Handle(PageRequest(sid), env, store).response.status == 200
    ensures var body := VerifySession.Handle(PageRequest(sid), env, store).response.body;
      var page := SuccessPage.Visit(Some(sid), [SuccessPage.Answered(SuccessPage.Returned(Some(Read(VerifySession.Serialize(body)))))]).state;
      && ((body.AlreadyProcessed? || body.Activated?) <==> SuccessPage.Render(page) == SuccessPage.SuccessScreen)
      && (body.NeedsAccount? <==>
            SuccessPage.Render(page) == SuccessPage.ErrorScreen(SuccessPage.AccountTitle, VerifySession.NoAccount, false))
    ensures var body := VerifySession.Handle(PageRequest(sid), env, store).response.body;
      var events := [SuccessPage.Answered(SuccessPage.Returned(Some(Read(VerifySession.Serialize(body)))))];
      SuccessPage.GuardedVisit(Some(sid), events) == SuccessPage.Visit(Some(sid), events)
  {
    var body := VerifySession.Handle(PageRequest(sid), env, store).response.body;
    var events := [SuccessPage.Answered(SuccessPage.Returned(Some(Read(VerifySession.Serialize(body)))))];
    assert events[1..] == [];
    var firstPage := SuccessPage.Open(Some(sid));
    assert SuccessPage.Visit(Some(sid), events) == SuccessPage.Run(SuccessPage.Step(firstPage, events[0]), []);
    assert firstPage.inFlight == 1 && firstPage.state == SuccessPage.Initial;
    assert SuccessPage.GuardedVisit(Some(sid), events) == SuccessPage.GuardedRun(SuccessPage.GuardedStep(firstPage, events[0]), []);
  }
}

=== FILE: header.dfy ===
/**
 * The landing-page header: the signed-in user derived from the auth session,
 * the avatar initials and display name computed from it, and the
 * two-field (menu open, user) state its handlers update.
 */
module Header {
  import opened Wrappers
  import opened JsText

  /** The auth provider's view of a user: `email` and the `user_metadata` name fields. */
  datatype UserMetadata = UserMetadata(fullName: Option<string>, name: Option<string>)
  datatype AuthUser = AuthUser(email: Option<string>, metadata: Option<UserMetadata>)
  datatype AuthSession = AuthSession(user: Option<AuthUser>)

  /** The header's own record of the signed-in user. */
  datatype User = User(email: string, fullName: Option<string>)

  /** The header's state hooks. */
  datatype HeaderState = HeaderState(menuOpen: bool, user: Option<User>)

  /** The user shown for an auth session: present exactly when the session carries a user. */
  function DeriveUser(session: Option<AuthSession>): (u: Option<User>)
    ensures u.Some? <==> session.Some? && session.value.user.Some?
    ensures u.Some? ==> u.value.email == OrElse(session.value.user.value.email, "")
    ensures u.Some? && u.value.fullName.Some? ==> u.value.fullName.value != ""
    ensures u.Some? ==>
      var meta := session.value.user.value.metadata;
      && (meta.Some? && Truthy(meta.value.fullName) ==> u.value.fullName == meta.value.fullName)
      && (meta.Some? && !Truthy(meta.value.fullName) && Truthy(meta.value.name) ==> u.value.fullName == meta.value.name)
      && (u.value.fullName.None? <==> meta.None? || (!Truthy(meta.value.fullName) && !Truthy(meta.value.name)))
  {
    if session.Some? && session.value.user.Some? then
      var user := session.value.user.value;
      var fullName := if user.metadata.Some? then FirstTruthy(user.metadata.value.fullName, user.metadata.value.name) else None;
      Some(User(OrElse(user.email, ""), fullName))
    else None
  }

  /** The avatar text. */
  function Initials(user: Option<User>): (r: string)
    ensures |r| <= 2
    ensures user.None? ==> r == "U"
    ensures user.Some? && !Truthy(user.value.fullName) ==>
              (user.value.email == "" ==> r == "U") && (user.value.email != "" ==> r == [UpperChar(user.value.email[0])])
    ensures user.Some? && Truthy(user.value.fullName) ==> r <= ToUpper(Heads(Split(user.value.fullName.value)))
  {
    if user.Some? && Truthy(user.value.fullName) then
      Prefix(ToUpper(Heads(Split(user.value.fullName.value))), 2)
    else if user.Some? && user.value.email != "" then
      [UpperChar(user.value.email[0])]
    else
      "U"
  }

  /** The name shown next to the avatar. */
  function DisplayName(user: Option<User>): (r: string)
    ensures user.None? ==> r == ""
    ensures user.Some? && Truthy(user.value.fullName) ==> r == user.value.fullName.value
    ensures user.Some? && !Truthy(user.value.fullName) ==> r == user.value.email
  {
    if user.Some? then OrElse(user.value.fullName, user.value.email) else ""
  }

  /**
   * With a full name, the initials are the upper-cased first letters of its
   * first two words: a word starts at a non-space character that begins the
   * name or follows a space.
   */
  lemma InitialsFromWords(user: Option<User>)
    requires user.Some? && Truthy(user.value.fullName)
    ensures var starts := WordStarts(user.value.fullName.value, true);
      Initials(user) == ToUpper(Prefix(starts, 2))
  {
    var name := user.value.fullName.value;
    HeadsOfSplit(name, true);
    UpperCaseLaws(WordStarts(name, true), 2);
  }

  /** A full name made only of spaces yields no initials at all: the "U" fallback is not used. */
  lemma BlankFullNameHasNoInitials(user: Option<User>)
    requires user.Some? && Truthy(user.value.fullName)
    requires forall i :: 0 <= i < |user.value.fullName.value| ==> user.value.fullName.value[i] == ' '
    ensures Initials(user) == ""
  {
    InitialsFromWords(user);
    NoWordStartsWhenBlank(user.value.fullName.value, true);
  }

  /**
   * The avatar and the name agree: an empty name goes with the "U" avatar,
   * and without a full name the avatar is the name's first letter, upper-cased.
   */
  lemma AvatarMatchesName(user: Option<User>)
    ensures DisplayName(user) == "" ==> Initials(user) == "U"
    ensures user.Some? && !Truthy(user.value.fullName) && DisplayName(user) != "" ==>
              Initials(user) == [UpperChar(DisplayName(user)[0])]
  {
  }

  /** The events the header reacts to. */
  datatype Event =
    | AuthStateChanged(session: Option<AuthSession>)  // the auth listener
    | SessionLoaded(session: Option<AuthSession>)     // the initial `getSession` resolving
    | ScrollTo                                        // a section link, desktop or mobile
    | ToggleMenu                                      // the mobile menu button
    | MobileLinkClicked                               // "Mi cuenta", "Iniciar sesión", "Empezar test" in the mobile menu
    | LogoutClicked                                   // the desktop menu item: starts `handleLogout`
    | MobileLogoutClicked                             // the mobile button: starts `handleLogout` and closes the menu
    | SignedOut                                       // a started `handleLogout` resuming after `signOut` resolves

  /**
   * One handler run. `handleLogout` is asynchronous: a logout click changes
   * no user state by itself, and the user is cleared only when the awaited
   * sign-out resumes (`SignedOut`), after any events that arrived meanwhile.
   */
  function Step(s: HeaderState, e: Event): (t: HeaderState)
    ensures e.ScrollTo? || e.MobileLinkClicked? || e.MobileLogoutClicked? ==> !t.menuOpen
    ensures e.ToggleMenu? ==> t.menuOpen == !s.menuOpen && t.user == s.user
    ensures e.SignedOut? ==> t.user.None?
    ensures e.AuthStateChanged? || e.SessionLoaded? || e.SignedOut? || e.LogoutClicked? ==> t.menuOpen == s.menuOpen
    ensures e.AuthStateChanged? ==> t.user == DeriveUser(e.session)
    ensures e.SessionLoaded? ==> t.user == (if DeriveUser(e.session).Some? then DeriveUser(e.session) else s.user)
    ensures e.ScrollTo? || e.MobileLinkClicked? || e.LogoutClicked? || e.MobileLogoutClicked? ==> t.user == s.user
    ensures s.user.Some? && t.user.None? ==> e.SignedOut? || e.AuthStateChanged?
  {
    match e
    case AuthStateChanged(session) => s.(user := DeriveUser(session))
    case SessionLoaded(session) =>
      var u := DeriveUser(session);
      if u.Some? then s.(user := u) else s
    case ScrollTo => s.(menuOpen := false)
    case ToggleMenu => s.(menuOpen := !s.menuOpen)
    case MobileLinkClicked => s.(menuOpen := false)
    case LogoutClicked => s
    case MobileLogoutClicked => s.(menuOpen := false)
    case SignedOut => s.(user := None)
  }

  /** Replays a sequence of events from `s`. */
  function Run(s: HeaderState, events: seq<Event>): HeaderState
    decreases |events|
  {
    if |events| == 0 then s else Run(Step(s, events[0]), events[1..])
  }

  /** An auth change without a user signs the header out; the initial session load never does. */
  lemma ListenerClearsLoadKeeps(s: HeaderState, session: Option<AuthSession>)
    requires session.None? || session.value.user.None?
    ensures Step(s, AuthStateChanged(session)).user.None?
    ensures Step(s, SessionLoaded(session)) == s
  {
  }

  /**
   * The mobile logout button closes the menu at once but keeps the user until
   * the sign-out resumes; a user announced by the auth listener in between is
   * then cleared by the late `setUser(null)`.
   */
  lemma MobileLogoutClearsLate(s: HeaderState, session: Option<AuthSession>)
    ensures Step(s, MobileLogoutClicked) == s.(menuOpen := false)
    ensures Run(s, [MobileLogoutClicked, AuthStateChanged(session), SignedOut]) == HeaderState(false, None)
  {
    var es := [MobileLogoutClicked, AuthStateChanged(session), SignedOut];
    var closed := s.(menuOpen := false);
    var relogged := closed.(user := DeriveUser(session));
    assert es[1..][1..][1..] == [];
    calc {
      Run(s, es);
      Run(closed, es[1..]);
      Run(relogged, es[1..][1..]);
      Run(relogged.(user := None), es[1..][1..][1..]);
    }
  }

  /** Toggling twice restores the menu. */
  lemma ToggleTwice(s: HeaderState)
    ensures Run(s, [ToggleMenu, ToggleMenu]) == s
  {
  }

  /** Events that concern only the session never open or close the menu. */
  lemma {:induction false} AuthEventsKeepMenu(s: HeaderState, events: seq<Event>)
    requires forall k :: 0 <= k < |events| ==> events[k].AuthStateChanged? || events[k].SessionLoaded?
    ensures Run(s, events).menuOpen == s.menuOpen
    decreases |events|
  {
    if |events| > 0 {
      AuthEventsKeepMenu(Step(s, events[0]), events[1..]);
    }
  }

  /** Whatever happened before, the displayed name never comes from an empty full name. */
  lemma {:induction false} RunKeepsNonEmptyFullName(s: HeaderState, events: seq<Event>)
    requires s.user.Some? && s.user.value.fullName.Some? ==> s.user.value.fullName.value != ""
    ensures var t := Run(s, events);
      t.user.Some? && t.user.value.fullName.Some? ==> t.user.value.fullName.value != ""
    decreases |events|
  {
    if |events| > 0 {
      RunKeepsNonEmptyFullName(Step(s, events[0]), events[1..]);
    }
  }
}

=== FILE: js_text.dfy ===
/**
 * The few JavaScript string semantics the modelled code relies on:
 * truthiness of optional strings, `||` defaulting, `split(" ")`,
 * `join`, ASCII `toUpperCase` and `slice(0, n)`.
 */
module JsText {
  import opened Wrappers

  /** A JavaScript string value that is truthy: present and non-empty. */
  predicate Truthy(s: Option<string>) {
    s.Some? && s.value != ""
  }

  /** `a || b` where `a` is an optional string and `b` a fallback string. */
  function OrElse(a: Option<string>, b: string): string
  {
    if Truthy(a) then a.value else b
  }

  /** `a || b || null`: the first truthy operand, or absent. */
  function FirstTruthy(a: Option<string>, b: Option<string>): (r: Option<string>)
    ensures r.Some? ==> r.value != ""
    ensures r.Some? <==> Truthy(a) || Truthy(b)
    ensures Truthy(a) ==> r == a
    ensures !Truthy(a) ==> r == (if Truthy(b) then b else None)
  {
    if Truthy(a) then a else if Truthy(b) then b else None
  }

  /** ASCII case mapping; other characters are left as they are. */
  function UpperChar(c: char): (u: char)
    ensures 'a' <= c <= 'z' ==> 'A' <= u <= 'Z' && u as int - c as int == 'A' as int - 'a' as int
    ensures !('a' <= c <= 'z') ==> u == c
  {
    if 'a' <= c <= 'z' then (c as int - 'a' as int + 'A' as int) as char else c
  }

  /** `s.toUpperCase()`, restricted to the ASCII mapping. */
  function ToUpper(s: string): string
  {
    seq(|s|, i requires 0 <= i < |s| => UpperChar(s[i]))
  }

  /**
   * Upper-casing is idempotent, and taking a prefix before or after
   * upper-casing gives the same string.
   */
  lemma UpperCaseLaws(s: string, n: nat)
    ensures ToUpper(ToUpper(s)) == ToUpper(s)
    ensures ToUpper(Prefix(s, n)) == Prefix(ToUpper(s), n)
  {
  }

  /** `s.slice(0, n)` for a non-negative `n`. */
  function Prefix(s: string, n: nat): (r: string)
    ensures |r| == if n < |s| then n else |s|
    ensures r <= s
  {
    if n < |s| then s[..n] else s
  }

  /** `s.split(" ")`: the maximal runs between single spaces, empty runs included. */
  function Split(s: string): (parts: seq<string>)
    ensures |parts| >= 1
    ensures forall k :: 0 <= k < |parts| ==> ' ' !in parts[k]
    decreases |s|
  {
    if |s| == 0 then [""]
    else
      var rest := Split(s[1..]);
      if s[0] == ' ' then [""] + rest
      else [[s[0]] + rest[0]] + rest[1..]
  }

  /** `parts.join(" ")`. */
  function Join(parts: seq<string>): (s: string)
    requires |parts| >= 1
    decreases |parts|
  {
    if |parts| == 1 then parts[0] else parts[0] + " " + Join(parts[1..])
  }

  /** The number of spaces in `s`. */
  function Spaces(s: string): nat
    decreases |s|
  {
    if |s| == 0 then 0 else (if s[0] == ' ' then 1 else 0) + Spaces(s[1..])
  }

  /** Splitting on spaces loses nothing: joining the parts back gives the original string. */
  lemma {:induction false} JoinSplit(s: string)
    ensures Join(Split(s)) == s
    decreases |s|
  {
    if |s| > 0 {
      var rest := Split(s[1..]);
      JoinSplit(s[1..]);
      if s[0] == ' ' {
        assert Split(s) == [""] + rest;
        assert ([""] + rest)[1..] == rest;
        assert s == [s[0]] + s[1..];
      } else {
        var parts := Split(s);
        assert parts == [[s[0]] + rest[0]] + rest[1..];
        if |rest| == 1 {
          assert s == [s[0]] + s[1..];
        } else {
          assert parts[1..] == rest[1..];
          assert Join(rest) == rest[0] + " " + Join(rest[1..]);
          assert s == [s[0]] + s[1..];
        }
      }
    }
  }

  /** One part per space, plus one. */
  lemma {:induction false} SplitCount(s: string)
    ensures |Split(s)| == Spaces(s) + 1
    decreases |s|
  {
    if |s| > 0 {
      SplitCount(s[1..]);
    }
  }

  /**
   * `parts.map(n => n[0]).join("")`: the first character of every part. An
   * empty part's `n[0]` is `undefined`, which `join` renders as the empty string.
   */
  function Heads(parts: seq<string>): string
    decreases |parts|
  {
    if |parts| == 0 then ""
    else (if |parts[0]| > 0 then [parts[0][0]] else "") + Heads(parts[1..])
  }

  /**
   * An independent, left-to-right reading of "first letter of each word":
   * the characters of `s` that are not spaces and follow a space or the
   * start of the string (`atStart` says whether the previous character was
   * such a boundary).
   */
  function WordStarts(s: string, atStart: bool): string
    decreases |s|
  {
    if |s| == 0 then ""
    else (if atStart && s[0] != ' ' then [s[0]] else "") + WordStarts(s[1..], s[0] == ' ')
  }

  /**
   * Taking the first character of each space-separated part is the same as
   * collecting the characters that start a word.
   */
  lemma {:induction false} HeadsOfSplit(s: string, atStart: bool)
    ensures atStart ==> Heads(Split(s)) == WordStarts(s, true)
    ensures !atStart ==> Heads(Split(s)[1..]) == WordStarts(s, false)
    decreases |s|
  {
    if |s| > 0 {
      var rest := Split(s[1..]);
      HeadsOfSplit(s[1..], true);
      HeadsOfSplit(s[1..], false);
      if s[0] == ' ' {
        assert Split(s) == [""] + rest;
        assert Split(s)[1..] == rest;
      } else {
        var parts := Split(s);
        assert parts[1..] == rest[1..];
        assert Heads(parts) == [s[0]] + Heads(parts[1..]);
      }
    }
  }

  /** A string with no word start (empty or all spaces) has no heads. */
  lemma {:induction false} NoWordStartsWhenBlank(s: string, atStart: bool)
    requires forall i :: 0 <= i < |s| ==> s[i] == ' '
    ensures WordStarts(s, atStart) == ""
    decreases |s|
  {
    if |s| > 0 {
      NoWordStartsWhenBlank(s[1..], true);
    }
  }
}

=== FILE: plan_generating_loader.dfy ===
/**
 * The plan-generation loader: a fixed table of five steps, an interval that
 * advances the active step cyclically, and the active / done / pending
 * classification each step is drawn with.
 */
module PlanGeneratingLoader {

  datatype Icon = Brain | Dumbbell | Apple | Heart | Sparkles

  /** A row of the `steps` table; its `label` is `stepLabel` here, since `label` is a Dafny keyword. */
  datatype Step = Step(icon: Icon, stepLabel: string, color: string)

  const Steps: seq<Step> := [
    Step(Brain, "Analizando tu perfil diagnóstico...", "text-purple-500"),
    Step(Dumbbell, "Diseñando tu plan de entrenamiento...", "text-blue-500"),
    Step(Apple, "Creando tu menú semanal personalizado...", "text-green-500"),
    Step(Heart, "Preparando estrategias de bienestar...", "text-red-500"),
    Step(Sparkles, "Finalizando tu plan completo...", "text-amber-500")
  ]

  /** A valid value of `activeStep`. */
  type StepIndex = k: nat | k < |Steps|

  /** The interval callback: advance to the next step, wrapping after the last. */
  function Tick(k: StepIndex): (r: StepIndex)
    ensures k + 1 < |Steps| ==> r == k + 1
    ensures k + 1 == |Steps| ==> r == 0
  {
    (k + 1) % |Steps|
  }

  /** `activeStep` after `n` ticks from `k`. */
  function Ticks(k: StepIndex, n: nat): (r: StepIndex)
    decreases n
  {
    if n == 0 then k else Tick(Ticks(k, n - 1))
  }

  /** From any start, `n` ticks advance by `n` positions around the cycle of steps. */
  lemma {:induction false} TicksAdvance(k: StepIndex, n: nat)
    ensures Ticks(k, n) == (k + n) % |Steps|
    decreases n
  {
    if n > 0 {
      TicksAdvance(k, n - 1);
      var p := Ticks(k, n - 1);
      assert p == (k + n - 1) % |Steps|;
      assert (p + 1) % |Steps| == (k + n) % |Steps|;
    }
  }

  /** Starting at 0 the active step after `n` ticks is `n mod 5`; five ticks always come back. */
  lemma CycleOfFive(k: StepIndex, n: nat)
    ensures Ticks(0, n) == n % 5
    ensures Ticks(k, 5) == k
  {
    TicksAdvance(0, n);
    TicksAdvance(k, 5);
  }

  datatype StepClass = Active | Done | Pending

  /** How step `i` is drawn while `active` is the active step. */
  function Classify(i: nat, active: StepIndex): (c: StepClass)
    ensures c == Active <==> i == active
    ensures c == Done <==> i < active
    ensures c == Pending <==> i > active
  {
    if i == active then Active else if i < active then Done else Pending
  }

  /** The large icon of step `i` is shown at full opacity. */
  predicate IconVisible(i: nat, active: StepIndex) {
    active == i
  }

  /** Exactly one step is active, and its icon is the only one shown. */
  lemma ExactlyOneActive(active: StepIndex)
    ensures (set i | 0 <= i < |Steps| && Classify(i, active) == Active) == {active}
    ensures (set i | 0 <= i < |Steps| && IconVisible(i, active)) == {active}
  {
    var a := set i | 0 <= i < |Steps| && Classify(i, active) == Active;
    assert active in a;
  }

  /** Right after the wrap from the last step no step is drawn as done. */
  lemma AfterWrapNothingDone()
    ensures Tick(|Steps| - 1) == 0
    ensures var wrapped := Tick(|Steps| - 1); forall i: nat :: i < |Steps| ==> Classify(i, wrapped) != Done
  {
  }
}

=== FILE: success_page.dfy ===
/**
 * The post-checkout Success page: a four-field view state driven by the
 * result of invoking `verify-session`, and the choice among its three
 * screens (verifying, error, success).
 */
module SuccessPage {
  import opened Wrappers
  import opened JsText

  /** The page's state hooks. `error` keeps whatever value was assigned, absent included. */
  datatype PageState = PageState(verifying: bool, verified: bool, error: Option<string>, needsAccount: bool)

  /** The state before the mount effect runs. */
  const Initial := PageState(verifying := true, verified := false, error := None, needsAccount := false)

  /**
   * The fields of the function's JSON reply the page reads: `success` and
   * `needsAccount` by their truthiness, `error` as given.
   */
  datatype Payload = Payload(success: bool, needsAccount: bool, error: Option<string>)

  /**
   * How an invocation ends: the client reports an error, the call throws,
   * or it returns `data` (possibly null).
   */
  datatype Invocation = FunctionError | Threw | Returned(data: Option<Payload>)

  const DefaultError := "Error verificando el pago"
  const SupportError := "Error verificando el pago. Contacta con soporte si el problema persiste."
  const AccountTitle := "Cuenta no encontrada"
  const ErrorTitle := "Error en la verificación"

  /** The state right after mounting, and whether a verification call was started. */
  datatype Mounted = Mounted(state: PageState, started: bool)

  /** The mount effect: verify when a `session_id` is present, otherwise show success at once. */
  function Mount(sessionId: Option<string>): (m: Mounted)
    ensures m.started <==> Truthy(sessionId)
    ensures !m.started ==> !m.state.verifying && m.state.verified
    ensures m.started ==> m.state == Initial
  {
    if Truthy(sessionId) then Mounted(Initial, true)
    else Mounted(Initial.(verifying := false, verified := true), false)
  }

  /**
   * `verifySession` finishing with `result`, applied to the state `s` it
   * finds; the setters touch only the fields they name.
   */
  function Complete(s: PageState, result: Invocation): (t: PageState)
    ensures !t.verifying
    ensures t.verified <==> s.verified || (result.Returned? && result.data.Some? && result.data.value.success)
    ensures t.needsAccount <==>
              (s.needsAccount || (result.Returned? && result.data.Some? && !result.data.value.success && result.data.value.needsAccount))
    ensures (result.FunctionError? || result.Threw?) ==> t.error == Some(SupportError)
    ensures result.Returned? && result.data.Some? && result.data.value.success ==> t.error == s.error
    ensures result.Returned? && !(result.data.Some? && result.data.value.success) ==> Truthy(t.error) || t.needsAccount
    ensures result.Returned? && result.data.Some? && !result.data.value.success && result.data.value.needsAccount ==>
              t.error == result.data.value.error
    ensures result.Returned? && !(result.data.Some? && (result.data.value.success || result.data.value.needsAccount)) ==>
              t.error == Some(OrElse(if result.data.Some? then result.data.value.error else None, DefaultError))
    ensures result.Returned? && result.data.None? ==> t.error == Some(DefaultError)
  {
    match result
    case FunctionError => s.(error := Some(SupportError), verifying := false)
    case Threw => s.(error := Some(SupportError), verifying := false)
    case Returned(data) =>
      if data.Some? && data.value.success then
        s.(verified := true, verifying := false)
      else if data.Some? && data.value.needsAccount then
        s.(needsAccount := true, error := data.value.error, verifying := false)
      else
        var given := if data.Some? then data.value.error else None;
        s.(error := Some(OrElse(given, DefaultError)), verifying := false)
  }

  /** The three screens; the error screen has a title, a message and possibly a retry button. */
  datatype Screen = Verifying | ErrorScreen(title: string, message: string, offersRetry: bool) | SuccessScreen

  function Render(s: PageState): (v: Screen)
    ensures v.Verifying? <==> s.verifying
    ensures v.ErrorScreen? <==> !s.verifying && Truthy(s.error) && !s.verified
    ensures s.verified ==> !v.ErrorScreen?
    ensures v.ErrorScreen? ==> v.message == s.error.value
    ensures v.ErrorScreen? ==> (v.title == AccountTitle <==> s.needsAccount)
    ensures v.ErrorScreen? && !s.needsAccount ==> v.title == ErrorTitle
    ensures v.ErrorScreen? ==> (v.offersRetry <==> !s.needsAccount)
  {
    if s.verifying then Verifying
    else if Truthy(s.error) && !s.verified then
      ErrorScreen(if s.needsAccount then AccountTitle else ErrorTitle, s.error.value, !s.needsAccount)
    else SuccessScreen
  }

  /** The "Reintentar" button is on screen. */
  predicate RetryOffered(s: PageState) {
    Render(s).ErrorScreen? && Render(s).offersRetry
  }

  /**
   * The page with the `session_id` it was opened with and the number of
   * verification calls still outstanding.
   */
  datatype Page = Page(sessionId: Option<string>, state: PageState, inFlight: nat)

  /** A click on "Reintentar", or an outstanding call finishing with `result`. */
  datatype PageEvent = RetryClicked | Answered(result: Invocation)

  /** The page right after mounting: one call outstanding exactly when a session id is present. */
  function Open(sessionId: Option<string>): (p: Page)
    ensures p.sessionId == sessionId && p.state == Mount(sessionId).state
    ensures p.inFlight == 1 <==> Truthy(sessionId)
    ensures p.inFlight <= 1
  {
    var m := Mount(sessionId);
    Page(sessionId, m.state, if m.started then 1 else 0)
  }

  /** An outstanding call finishing: its setters run on whatever state the page is in. */
  function Answer(p: Page, result: Invocation): (q: Page)
    ensures p.inFlight == 0 ==> q == p
    ensures p.inFlight > 0 ==> q.inFlight == p.inFlight - 1 && q.state == Complete(p.state, result)
    ensures q.sessionId == p.sessionId
    ensures p.inFlight > 0 ==> Render(q.state) != Verifying
    ensures p.state.verified ==> q.state.verified
    ensures p.state.needsAccount ==> q.state.needsAccount
  {
    if p.inFlight > 0 then p.(state := Complete(p.state, result), inFlight := p.inFlight - 1) else p
  }

  /**
   * The page as written: a click on the shown retry button starts another
   * call (when a session id is known) without touching any state, so it stays
   * clickable while that call is outstanding; every answer is applied
   * whatever the screen shows by then.
   */
  function Step(p: Page, e: PageEvent): (q: Page)
    ensures q.sessionId == p.sessionId
    ensures e.RetryClicked? ==> q.state == p.state && q.inFlight <= p.inFlight + 1
    ensures e.RetryClicked? && RetryOffered(p.state) && Truthy(p.sessionId) ==> q.inFlight == p.inFlight + 1
    ensures e.RetryClicked? && !(RetryOffered(p.state) && Truthy(p.sessionId)) ==> q == p
    ensures e.Answered? ==> q == Answer(p, e.result)
    ensures p.state.verified ==> q.state.verified
  {
    match e
    case RetryClicked =>
      if RetryOffered(p.state) && Truthy(p.sessionId) then p.(inFlight := p.inFlight + 1) else p
    case Answered(result) => Answer(p, result)
  }

  /**
   * The page with the retry button unavailable while a call is outstanding:
   * a click starts a call only when none is in flight.
   */
  function GuardedStep(p: Page, e: PageEvent): (q: Page)
    ensures q.sessionId == p.sessionId
    ensures e.RetryClicked? && p.inFlight > 0 ==> q == p
    ensures e.RetryClicked? && p.inFlight == 0 ==> q == Step(p, e)
    ensures e.Answered? ==> q == Answer(p, e.result)
    ensures p.inFlight <= 1 ==> q.inFlight <= 1
    ensures e.RetryClicked? && RetryOffered(p.state) && Truthy(p.sessionId) ==> (q.inFlight > p.inFlight <==> p.inFlight == 0)
  {
    match e
    case RetryClicked => if p.inFlight == 0 then Step(p, e) else p
    case Answered(_) => Step(p, e)
  }

  function Run(p: Page, events: seq<PageEvent>): Page
    decreases |events|
  {
    if |events| == 0 then p else Run(Step(p, events[0]), events[1..])
  }

  function GuardedRun(p: Page, events: seq<PageEvent>): Page
    decreases |events|
  {
    if |events| == 0 then p else GuardedRun(GuardedStep(p, events[0]), events[1..])
  }

  /** A visit as written: open with `sessionId`, then the clicks and answers in `events`. */
  function Visit(sessionId: Option<string>, events: seq<PageEvent>): Page {
    Run(Open(sessionId), events)
  }

  /** A visit with the retry button guarded while a call is outstanding. */
  function GuardedVisit(sessionId: Option<string>, events: seq<PageEvent>): Page {
    GuardedRun(Open(sessionId), events)
  }

  /**
   * What holds of every page as written: the loader stays only until the
   * first call answers, and a page opened without a session id shows success
   * with no call outstanding.
   */
  ghost predicate Basic(p: Page) {
    && (p.state.verifying ==> p.state == Initial && p.inFlight == 1)
    && (!Truthy(p.sessionId) ==> p.inFlight == 0 && p.state.verified && !p.state.verifying)
  }

  lemma {:induction false} RunKeepsBasic(p: Page, events: seq<PageEvent>)
    requires Basic(p)
    ensures Basic(Run(p, events))
    ensures p.state.verified ==> Run(p, events).state.verified
    ensures Run(p, events).sessionId == p.sessionId
    decreases |events|
  {
    if |events| > 0 {
      RunKeepsBasic(Step(p, events[0]), events[1..]);
    }
  }

  /**
   * Over any visit as written: the loader is shown only while the first
   * call is outstanding; without a session id the page shows success and
   * makes no call; and once payment is verified the error screen never
   * returns, whatever answers arrive later.
   */
  lemma VisitBasics(sessionId: Option<string>, events: seq<PageEvent>, later: seq<PageEvent>)
    ensures var p := Visit(sessionId, events);
      && (p.state.verifying ==> p.state == Initial && p.inFlight == 1)
      && (!Truthy(sessionId) ==> Render(p.state) == SuccessScreen && p.inFlight == 0)
    ensures Visit(sessionId, events).state.verified ==>
              !Render(Run(Visit(sessionId, events), later).state).ErrorScreen?
  {
    RunKeepsBasic(Open(sessionId), events);
    RunKeepsBasic(Visit(sessionId, events), later);
  }

  /** The invariant of the guarded page: at most one call outstanding, and never both flags. */
  ghost predicate Settled(p: Page) {
    && Basic(p)
    && p.inFlight <= 1
    && (p.state.verified ==> p.inFlight == 0)
    && (p.state.needsAccount ==> p.inFlight == 0)
    && !(p.state.verified && p.state.needsAccount)
  }

  lemma {:induction false} GuardedRunKeepsSettled(p: Page, events: seq<PageEvent>)
    requires Settled(p)
    ensures Settled(GuardedRun(p, events))
    ensures p.state.needsAccount ==> GuardedRun(p, events) == p
    decreases |events|
  {
    if |events| > 0 {
      GuardedRunKeepsSettled(GuardedStep(p, events[0]), events[1..]);
    }
  }

  /**
   * With the guard, a visit never holds `verified` and `needsAccount`
   * together and never has two calls outstanding, and once an account is
   * needed no later click or answer changes the page.
   */
  lemma GuardedVisitSettles(sessionId: Option<string>, events: seq<PageEvent>, later: seq<PageEvent>)
    ensures var p := GuardedVisit(sessionId, events);
      && !(p.state.verified && p.state.needsAccount)
      && p.inFlight <= 1
    ensures GuardedVisit(sessionId, events).state.needsAccount ==>
              GuardedRun(GuardedVisit(sessionId, events), later) == GuardedVisit(sessionId, events)
  {
    GuardedRunKeepsSettled(Open(sessionId), events);
    GuardedRunKeepsSettled(GuardedVisit(sessionId, events), later);
  }

  /**
   * As written, two clicks on "Reintentar" put two calls in flight and both
   * answers are applied. If the first asks for an account and the second
   * succeeds, the page ends with `verified` and `needsAccount` both set; if
   * the second throws instead, the account-missing title sits above the
   * support message with no retry button. The guarded page ignores the
   * second click and stays on the account-missing screen.
   */
  lemma OverlappingRetriesMixScreens()
    ensures var account := Answered(Returned(Some(Payload(false, true, Some("m")))));
      var first := [Answered(Threw), RetryClicked, RetryClicked, account];
      && Visit(Some("cs"), first + [Answered(Returned(Some(Payload(true, false, None))))]).state.verified
      && Visit(Some("cs"), first + [Answered(Returned(Some(Payload(true, false, None))))]).state.needsAccount
      && Render(Visit(Some("cs"), first + [Answered(Threw)]).state) == ErrorScreen(AccountTitle, SupportError, false)
      && Render(GuardedVisit(Some("cs"), first + [Answered(Threw)]).state) == ErrorScreen(AccountTitle, "m", false)
  {
    var account := Answered(Returned(Some(Payload(false, true, Some("m")))));
    var p0 := Open(Some("cs"));
    var p1 := Step(p0, Answered(Threw));
    assert p1 == Page(Some("cs"), PageState(false, false, Some(SupportError), false), 0);
    var p2 := Step(p1, RetryClicked);
    var p3 := Step(p2, RetryClicked);
    assert p3.inFlight == 2;
    var p4 := Step(p3, account);
    assert p4 == Page(Some("cs"), PageState(false, false, Some("m"), true), 1);
    var first := [Answered(Threw), RetryClicked, RetryClicked, account];
    forall last: PageEvent
      ensures Visit(Some("cs"), first + [last]) == Step(p4, last)
    {
      var es := first + [last];
      assert es[1..][1..][1..][1..][1..] == [];
      calc {
        Visit(Some("cs"), es);
        Run(p1, es[1..]);
        Run(p2, es[1..][1..]);
        Run(p3, es[1..][1..][1..]);
        Run(p4, es[1..][1..][1..][1..]);
        Run(Step(p4, last), es[1..][1..][1..][1..][1..]);
      }
    }
    var g3 := GuardedStep(p2, RetryClicked);
    assert g3 == p2;
    var g4 := GuardedStep(g3, account);
    var es := first + [Answered(Threw)];
    assert es[1..][1..][1..][1..][1..] == [];
    calc {
      GuardedVisit(Some("cs"), es);
      GuardedRun(p1, es[1..]);
      GuardedRun(p2, es[1..][1..]);
      GuardedRun(g3, es[1..][1..][1..]);
      GuardedRun(g4, es[1..][1..][1..][1..]);
      GuardedRun(GuardedStep(g4, Answered(Threw)), es[1..][1..][1..][1..][1..]);
    }
  }

  /** A successful completion shows the success screen, whatever error an earlier attempt left. */
  lemma SuccessWins(s: PageState, data: Payload)
    requires data.success
    ensures Render(Complete(s, Returned(Some(data)))) == SuccessScreen
  {
  }

  /**
   * The account branch copies `data.error` as it is: a reply that asks for an
   * account but carries no message leaves `error` falsy, so the page falls
   * through to the success screen.
   */
  lemma AccountReplyWithoutMessage(s: PageState, message: Option<string>)
    requires !s.verified && !Truthy(message)
    ensures var t := Complete(s, Returned(Some(Payload(false, true, message))));
      t.needsAccount && Render(t) == SuccessScreen
  {
  }
}

=== FILE: verify_session.dfy ===
/**
 * The `verify-session` edge function: confirms a checkout session with the
 * payment provider and, the first time a paid session is seen, records one
 * active subscription for the purchaser and asks the plan generator to build
 * their plan.
 *
 * Everything the handler reaches over the network is an input here: the
 * provider's session lookup is an oracle function, the database is an
 * immutable `Store` value, the insert's success or failure is an oracle
 * value, and the clock and calendar arithmetic are parameters. The handler
 * is a pure function from these to a response, the new store, the plan
 * generation notifications it fires, and the provider lookups it made.
 */
module VerifySession {
  import opened Wrappers
  import opened JsText

  // ---------------------------------------------------------------------
  // Inputs

  /** A point in time (the model does not fix its unit). */
  type Instant = int

  /**
   * Calendar arithmetic as the runtime performs it (`Date.setDate` and
   * `Date.setMonth` on the current date); left abstract.
   */
  datatype Calendar = Calendar(addDays: (Instant, nat) -> Instant, addMonths: (Instant, nat) -> Instant)

  /** The parsed JSON request body, or the reason `req.json()` rejected it. */
  datatype RequestBody = Unparsable(reason: string) | Json(sessionId: Option<string>)

  datatype Request = Request(httpMethod: string, body: RequestBody)

  /** The fields of the provider's checkout session the handler reads. */
  datatype CheckoutSession = CheckoutSession(
    id: string,
    paymentStatus: string,
    metadata: Option<map<string, string>>)

  /** What the provider's `checkout.sessions.retrieve` produced. */
  datatype Retrieval = Retrieved(session: CheckoutSession) | RetrieveFailed(message: string)

  /** What the database insert produced: the new row's id, or an error. */
  datatype InsertOutcome = Inserted(id: string) | InsertFailed(message: string)

  /**
   * The collaborators and the clock of one invocation. The handler reads the
   * clock twice: once for the start date and once for the date the end is
   * computed from.
   */
  datatype Env = Env(
    provider: string -> Retrieval,
    insert: InsertOutcome,
    startClock: Instant,
    endClock: Instant,
    calendar: Calendar)

  // ---------------------------------------------------------------------
  // Persisted state

  datatype Subscription = Subscription(
    id: string,
    userId: string,
    planId: string,
    planName: string,
    status: string,
    includesAddon: bool,
    startDate: Instant,
    endDate: Instant,
    stripeSessionId: string)

  /**
   * The tables the handler touches: `subscriptions` keyed by
   * `stripe_session_id`, `profiles` as email to `user_id`, and the
   * subscription ids that some `user_plans` row references.
   */
  datatype Store = Store(
    subscriptions: map<string, Subscription>,
    profiles: map<string, string>,
    userPlans: set<string>)

  /** Every subscription row is filed under its own checkout session id. */
  ghost predicate StoreInv(store: Store) {
    forall sid :: sid in store.subscriptions ==> store.subscriptions[sid].stripeSessionId == sid
  }

  // ---------------------------------------------------------------------
  // Outputs

  /** The request sent to the plan generator (`{ userId, subscriptionId }`). */
  datatype Notification = GeneratePlan(userId: string, subscriptionId: string)

  /** Only the cross-origin headers, or those plus the JSON content type. */
  datatype Headers = Cors | CorsJson

  /** The response bodies the handler produces. */
  datatype Body =
    | NoBody
    | Fault(error: string)
    | PaymentIncomplete
    | AlreadyProcessed(subscriptionId: string, planExists: bool)
    | NeedsAccount(error: string)
    | Activated(subscriptionId: string, userId: string)

  datatype Response = Response(status: int, body: Body, headers: Headers)

  datatype Outcome = Outcome(
    response: Response,
    store: Store,
    notifications: seq<Notification>,
    providerCalls: seq<string>)

  /** The JSON object a body serialises to; absent keys are `None`. */
  datatype JsonBody = JsonBody(
    success: Option<bool>,
    error: Option<string>,
    alreadyProcessed: Option<bool>,
    needsAccount: Option<bool>,
    subscriptionId: Option<string>,
    userId: Option<string>,
    planExists: Option<bool>)

  const SessionIdRequired := "sessionId is required"
  const PaymentNotCompleted := "Payment not completed"
  const MissingMetadata := "Missing metadata in checkout session"
  const NoAccount := "No se encontró una cuenta con ese email. Regístrate primero."
  const InsertFailurePrefix := "Failed to create subscription: "
  const Paid := "paid"
  const Active := "active"
  const UnknownPlan := "unknown"

  /** The JSON text of each body, as written by the handler. */
  function Serialize(b: Body): (j: JsonBody)
    ensures j.success == Some(true) <==> b.AlreadyProcessed? || b.Activated?
    ensures j.success == Some(false) <==> b.PaymentIncomplete? || b.NeedsAccount?
    ensures j.error.Some? <==> b.Fault? || b.PaymentIncomplete? || b.NeedsAccount?
    ensures j.needsAccount == Some(true) <==> b.NeedsAccount?
    ensures j.needsAccount.Some? <==> b.NeedsAccount?
    ensures j.subscriptionId.Some? <==> b.AlreadyProcessed? || b.Activated?
    ensures j.alreadyProcessed.Some? <==> b.AlreadyProcessed?
    ensures j.planExists.Some? <==> b.AlreadyProcessed?
    ensures j.userId.Some? <==> b.Activated?
    ensures b.AlreadyProcessed? ==>
              j.alreadyProcessed == Some(true) && j.subscriptionId == Some(b.subscriptionId) && j.planExists == Some(b.planExists)
    ensures b.Activated? ==> j.subscriptionId == Some(b.subscriptionId) && j.userId == Some(b.userId)
    ensures b.Fault? || b.NeedsAccount? ==> j.error == Some(b.error)
    ensures b.PaymentIncomplete? ==> j.error == Some(PaymentNotCompleted)
  {
    var none := JsonBody(None, None, None, None, None, None, None);
    match b
    case NoBody => none
    case Fault(e) => none.(error := Some(e))
    case PaymentIncomplete => none.(success := Some(false), error := Some(PaymentNotCompleted))
    case AlreadyProcessed(id, plan) =>
      none.(success := Some(true), alreadyProcessed := Some(true), subscriptionId := Some(id), planExists := Some(plan))
    case NeedsAccount(e) => none.(success := Some(false), error := Some(e), needsAccount := Some(true))
    case Activated(id, user) => none.(success := Some(true), subscriptionId := Some(id), userId := Some(user))
  }

  // ---------------------------------------------------------------------
  // Metadata and the subscription window

  /** The five metadata fields the handler destructures from `session.metadata || {}`. */
  datatype PlanMetadata = PlanMetadata(
    email: Option<string>,
    planId: Option<string>,
    planName: Option<string>,
    duration: Option<string>,
    addOnIncluded: Option<string>)

  function Field(metadata: Option<map<string, string>>, key: string): Option<string>
  {
    if metadata.Some? && key in metadata.value then Some(metadata.value[key]) else None
  }

  function ReadMetadata(metadata: Option<map<string, string>>): PlanMetadata {
    PlanMetadata(
      Field(metadata, "email"),
      Field(metadata, "planId"),
      Field(metadata, "planName"),
      Field(metadata, "duration"),
      Field(metadata, "addOnIncluded"))
  }

  /** The duration labels the checkout flow writes, and the fallback for any other. */
  datatype Duration = SevenDays | OneMonth | ThreeMonths | Unrecognized

  function ParseDuration(text: Option<string>): (d: Duration)
    ensures d == SevenDays <==> text == Some("7 días")
    ensures d == OneMonth <==> text == Some("1 mes")
    ensures d == ThreeMonths <==> text == Some("3 meses")
  {
    if text == Some("7 días") then SevenDays
    else if text == Some("1 mes") then OneMonth
    else if text == Some("3 meses") then ThreeMonths
    else Unrecognized
  }

  /**
   * The end of the subscription window, computed from the clock reading
   * `base`: moved forward by the calendar for a recognised duration, left
   * where it is otherwise.
   */
  function EndDate(base: Instant, d: Duration, cal: Calendar): (end: Instant)
    ensures d == Unrecognized ==> end == base
    ensures d != Unrecognized ==> end in {cal.addDays(base, 7), cal.addMonths(base, 1), cal.addMonths(base, 3)}
  {
    match d
    case SevenDays => cal.addDays(base, 7)
    case OneMonth => cal.addMonths(base, 1)
    case ThreeMonths => cal.addMonths(base, 3)
    case Unrecognized => base
  }

  /**
   * The row inserted for a paid session by the user `userId`, with the clock
   * readings `start` and `base`.
   */
  function NewSubscription(
    id: string, userId: string, session: CheckoutSession, meta: PlanMetadata, start: Instant, base: Instant, cal: Calendar
  ): (row: Subscription)
    requires Truthy(meta.planName)
    ensures row.id == id && row.userId == userId
    ensures row.status == Active
    ensures row.stripeSessionId == session.id
    ensures row.planName == meta.planName.value && row.planName != ""
    ensures row.planId != ""
    ensures Truthy(meta.planId) ==> row.planId == meta.planId.value
    ensures !Truthy(meta.planId) ==> row.planId == UnknownPlan
    ensures row.includesAddon <==> meta.addOnIncluded == Some("true")
    ensures row.startDate == start
    ensures row.endDate == EndDate(base, ParseDuration(meta.duration), cal)
  {
    Subscription(
      id := id,
      userId := userId,
      planId := OrElse(meta.planId, UnknownPlan),
      planName := meta.planName.value,
      status := Active,
      includesAddon := meta.addOnIncluded == Some("true"),
      startDate := start,
      endDate := EndDate(base, ParseDuration(meta.duration), cal),
      stripeSessionId := session.id)
  }

  // ---------------------------------------------------------------------
  // The handler

  function Reply(status: int, body: Body, store: Store, calls: seq<string>): Outcome {
    Outcome(Response(status, body, CorsJson), store, [], calls)
  }

  /**
   * The top-level `catch`: any thrown error becomes a 500 whose JSON is
   * exactly `{ error: message }`, and the run has no effect.
   */
  function Thrown(message: string, store: Store, calls: seq<string>): (o: Outcome)
    ensures o.response.status == 500 && o.response.headers == CorsJson
    ensures Serialize(o.response.body) == JsonBody(None, Some(message), None, None, None, None, None)
    ensures WritesOnlyActivation(store, o) && o.store == store && o.notifications == []
    ensures o.providerCalls == calls
  {
    Reply(500, Fault(message), store, calls)
  }

  /** The effects a run may have: at most one new subscription, announced by exactly one notification. */
  ghost predicate WritesOnlyActivation(store: Store, o: Outcome) {
    && o.store.profiles == store.profiles
    && o.store.userPlans == store.userPlans
    && |o.notifications| <= 1
    && (o.response.body.Activated? <==> |o.notifications| == 1)
    && (!o.response.body.Activated? ==> o.store == store)
    && (o.response.body.Activated? ==>
          exists sid :: sid !in store.subscriptions && sid in o.store.subscriptions
                     && o.store.subscriptions == store.subscriptions[sid := o.store.subscriptions[sid]]
                     && o.store.subscriptions[sid].id == o.response.body.subscriptionId
                     && o.notifications[0] == GeneratePlan(o.store.subscriptions[sid].userId, o.response.body.subscriptionId))
  }

  /** Steps 2 onwards, once a session id is in hand. */
  function VerifyPaid(sessionId: string, env: Env, store: Store): (o: Outcome)
    ensures o.providerCalls == [sessionId]
    ensures o.response.headers == CorsJson
    ensures WritesOnlyActivation(store, o)
    ensures StoreInv(store) ==> StoreInv(o.store)
    ensures o.response.body.Activated? ==> o.response.status == 200
  {
    var calls := [sessionId];
    match env.provider(sessionId)
    case RetrieveFailed(message) => Thrown(message, store, calls)
    case Retrieved(session) =>
      if session.paymentStatus != Paid then
        Reply(400, PaymentIncomplete, store, calls)
      else
        var meta := ReadMetadata(session.metadata);
        if !Truthy(meta.email) || !Truthy(meta.planName) then
          Thrown(MissingMetadata, store, calls)
        else if session.id in store.subscriptions then
          var existing := store.subscriptions[session.id].id;
          Reply(200, AlreadyProcessed(existing, existing in store.userPlans), store, calls)
        else if meta.email.value !in store.profiles then
          Reply(200, NeedsAccount(NoAccount), store, calls)
        else
          var userId := store.profiles[meta.email.value];
          match env.insert
          case InsertFailed(message) => Thrown(InsertFailurePrefix + message, store, calls)
          case Inserted(id) =>
            var row := NewSubscription(id, userId, session, meta, env.startClock, env.endClock, env.calendar);
            var store' := store.(subscriptions := store.subscriptions[session.id := row]);
            assert store'.subscriptions[session.id] == row;
            Outcome(Response(200, Activated(id, userId), CorsJson), store', [GeneratePlan(userId, id)], calls)
  }

  /** The `serve` handler. */
  function Handle(req: Request, env: Env, store: Store): (o: Outcome)
    ensures req.httpMethod == "OPTIONS" ==>
              o.response == Response(200, NoBody, Cors) && o.store == store
              && o.notifications == [] && o.providerCalls == []
    ensures req.httpMethod != "OPTIONS" ==> o.response.headers == CorsJson && o.response.body != NoBody
    ensures |o.providerCalls| <= 1
    ensures o.response.status == 500 <==> o.response.body.Fault?
    ensures WritesOnlyActivation(store, o)
    ensures StoreInv(store) ==> StoreInv(o.store)
  {
    if req.httpMethod == "OPTIONS" then
      Outcome(Response(200, NoBody, Cors), store, [], [])
    else
      match req.body
      case Unparsable(reason) => Thrown(reason, store, [])
      case Json(sessionId) =>
        if !Truthy(sessionId) then Thrown(SessionIdRequired, store, [])
        else VerifyPaid(sessionId.value, env, store)
  }
}

=== FILE: verify_session_properties.dfy ===
/**
 * Outcome-by-outcome properties of the `verify-session` handler: each branch
 * of its decision chain, the shape of the row a new activation writes, the
 * subscription window, and idempotency across invocations.
 */
module VerifySessionProperties {
  import opened Wrappers
  import opened JsText
  import opened VerifySession

  /** A non-preflight request carrying the session id `sid`. */
  predicate Carries(req: Request, sid: string) {
    req.httpMethod != "OPTIONS" && req.body == Json(Some(sid)) && sid != ""
  }

  /** The provider reports `session` as paid for `sid`, with the required metadata. */
  predicate PaidWithMetadata(env: Env, sid: string, session: CheckoutSession) {
    && env.provider(sid) == Retrieved(session)
    && session.paymentStatus == Paid
    && Truthy(ReadMetadata(session.metadata).email)
    && Truthy(ReadMetadata(session.metadata).planName)
  }

  /** A preflight request is answered with an empty body and the cross-origin headers, and nothing else happens. */
  lemma Preflight(req: Request, env: Env, store: Store)
    requires req.httpMethod == "OPTIONS"
    ensures var o := Handle(req, env, store);
      && o.response.body == NoBody && o.response.headers == Cors
      && o.store == store && o.notifications == [] && o.providerCalls == []
  {
  }

  /** Without a truthy `sessionId` the handler fails with 500 before contacting anyone. */
  lemma MissingSessionId(req: Request, env: Env, store: Store)
    requires req.httpMethod != "OPTIONS" && req.body.Json? && !Truthy(req.body.sessionId)
    ensures Handle(req, env, store) == Outcome(Response(500, Fault(SessionIdRequired), CorsJson), store, [], [])
    ensures Serialize(Handle(req, env, store).response.body).error == Some("sessionId is required")
  {
  }

  /** A session the provider does not report as paid gets a 400 and changes nothing. */
  lemma UnpaidSession(req: Request, env: Env, store: Store, sid: string, session: CheckoutSession)
    requires Carries(req, sid)
    requires env.provider(sid) == Retrieved(session) && session.paymentStatus != Paid
    ensures Handle(req, env, store) == Outcome(Response(400, PaymentIncomplete, CorsJson), store, [], [sid])
    ensures Serialize(PaymentIncomplete) ==
              JsonBody(Some(false), Some("Payment not completed"), None, None, None, None, None)
  {
  }

  /**
   * A paid session lacking the purchaser's email or the plan name is a 500,
   * and this is decided before the idempotency lookup: it holds whatever the
   * store already records for the session.
   */
  lemma MissingMetadataPrecedesIdempotency(req: Request, env: Env, store: Store, sid: string, session: CheckoutSession)
    requires Carries(req, sid)
    requires env.provider(sid) == Retrieved(session) && session.paymentStatus == Paid
    requires !Truthy(Field(session.metadata, "email")) || !Truthy(Field(session.metadata, "planName"))
    ensures Handle(req, env, store) == Outcome(Response(500, Fault(MissingMetadata), CorsJson), store, [], [sid])
  {
  }

  /**
   * A session that already has a subscription is reported as processed, with
   * that subscription's id and whether a plan references it; nothing is
   * written and no plan generation is requested.
   */
  lemma AlreadyProcessedIsNoOp(req: Request, env: Env, store: Store, sid: string, session: CheckoutSession)
    requires Carries(req, sid) && PaidWithMetadata(env, sid, session)
    requires session.id in store.subscriptions
    ensures var o := Handle(req, env, store);
      && o.response.status == 200
      && o.response.body.AlreadyProcessed?
      && o.response.body.subscriptionId == store.subscriptions[session.id].id
      && (o.response.body.planExists <==> store.subscriptions[session.id].id in store.userPlans)
      && o.store == store
      && o.notifications == []
  {
  }

  /** A paid, new session whose email has no profile asks the buyer to register; nothing is written. */
  lemma NoProfileNeedsAccount(req: Request, env: Env, store: Store, sid: string, session: CheckoutSession)
    requires Carries(req, sid) && PaidWithMetadata(env, sid, session)
    requires session.id !in store.subscriptions
    requires ReadMetadata(session.metadata).email.value !in store.profiles
    ensures Handle(req, env, store) == Outcome(Response(200, NeedsAccount(NoAccount), CorsJson), store, [], [sid])
    ensures Serialize(NeedsAccount(NoAccount)).success == Some(false)
    ensures Serialize(NeedsAccount(NoAccount)).needsAccount == Some(true)
  {
  }

  /**
   * A new activation inserts exactly one row, filed under the session id,
   * holding the profile's user id, status "active", the plan id (or
   * "unknown"), the plan name, the add-on flag, the two clock readings'
   * window and the session id; it fires exactly one plan generation request
   * for that user and row, and answers 200 with both ids.
   */
  lemma ActivationRecord(req: Request, env: Env, store: Store, sid: string, session: CheckoutSession, id: string)
    requires Carries(req, sid) && PaidWithMetadata(env, sid, session)
    requires session.id !in store.subscriptions
    requires ReadMetadata(session.metadata).email.value in store.profiles
    requires env.insert == Inserted(id)
    ensures var o := Handle(req, env, store);
      var meta := ReadMetadata(session.metadata);
      var userId := store.profiles[meta.email.value];
      && session.id in o.store.subscriptions
      && o.store.subscriptions.Keys == store.subscriptions.Keys + {session.id}
      && (forall k :: k in store.subscriptions ==> o.store.subscriptions[k] == store.subscriptions[k])
      && o.store.profiles == store.profiles && o.store.userPlans == store.userPlans
      && var row := o.store.subscriptions[session.id];
      && row.id == id
      && row.userId == userId
      && row.status == "active"
      && row.stripeSessionId == session.id
      && row.planName == meta.planName.value
      && (Truthy(meta.planId) ==> row.planId == meta.planId.value)
      && (!Truthy(meta.planId) ==> row.planId == "unknown")
      && (row.includesAddon <==> meta.addOnIncluded == Some("true"))
      && row.startDate == env.startClock
      && row.endDate == EndDate(env.endClock, ParseDuration(meta.duration), env.calendar)
      && o.notifications == [GeneratePlan(userId, id)]
      && o.response == Response(200, Activated(id, userId), CorsJson)
  {
  }

  /** A failed insert becomes a 500 whose message carries the database's; nothing is announced. */
  lemma InsertFailure(req: Request, env: Env, store: Store, sid: string, session: CheckoutSession, message: string)
    requires Carries(req, sid) && PaidWithMetadata(env, sid, session)
    requires session.id !in store.subscriptions
    requires ReadMetadata(session.metadata).email.value in store.profiles
    requires env.insert == InsertFailed(message)
    ensures Handle(req, env, store) ==
              Outcome(Response(500, Fault("Failed to create subscription: " + message), CorsJson), store, [], [sid])
  {
  }

  /**
   * Idempotency: once a request has activated a subscription, invoking the
   * handler again with the same request against the resulting store (with
   * the provider answering the same way, at any time, whatever the insert
   * would do) reports it as already processed with the same id, writes
   * nothing and requests no plan.
   */
  lemma SecondRunIsAlreadyProcessed(req: Request, env: Env, env': Env, store: Store)
    requires env'.provider == env.provider
    requires Handle(req, env, store).response.body.Activated?
    ensures var first := Handle(req, env, store);
      var second := Handle(req, env', first.store);
      && second.response.status == 200
      && second.response.body == AlreadyProcessed(first.response.body.subscriptionId, second.response.body.planExists)
      && (second.response.body.planExists <==> first.response.body.subscriptionId in store.userPlans)
      && second.store == first.store
      && second.notifications == []
  {
  }

  /**
   * The end by duration label, from the second clock reading `base`: a week,
   * one month or three months later, or `base` itself for any other label.
   */
  lemma WindowByLabel(base: Instant, text: Option<string>, cal: Calendar)
    ensures text == Some("7 días") ==> EndDate(base, ParseDuration(text), cal) == cal.addDays(base, 7)
    ensures text == Some("1 mes") ==> EndDate(base, ParseDuration(text), cal) == cal.addMonths(base, 1)
    ensures text == Some("3 meses") ==> EndDate(base, ParseDuration(text), cal) == cal.addMonths(base, 3)
    ensures text !in {Some("7 días"), Some("1 mes"), Some("3 meses")} ==> EndDate(base, ParseDuration(text), cal) == base
  {
  }

  /** Calendar arithmetic that moves forward by any positive amount. */
  ghost predicate Advancing(cal: Calendar) {
    && (forall t, n: nat :: n > 0 ==> cal.addDays(t, n) > t)
    && (forall t, n: nat :: n > 0 ==> cal.addMonths(t, n) > t)
  }

  /**
   * With forward-moving calendar arithmetic, and the second clock reading
   * `base` no earlier than the first, `start`, the window never ends before
   * it starts; the end stays at `base` exactly when the duration label is not
   * one of the three recognised ones, so an unrecognised label leaves only
   * the gap between the two clock readings.
   */
  lemma WindowNonEmptyIffRecognised(start: Instant, base: Instant, text: Option<string>, cal: Calendar)
    requires Advancing(cal) && start <= base
    ensures EndDate(base, ParseDuration(text), cal) >= start
    ensures EndDate(base, ParseDuration(text), cal) == base <==> ParseDuration(text) == Unrecognized
    ensures ParseDuration(text) != Unrecognized ==> EndDate(base, ParseDuration(text), cal) > start
  {
  }

  /**
   * Every subscription a run stores has a window that does not end before it
   * starts, given forward-moving calendar arithmetic and a clock that does
   * not go back between its two readings.
   */
  lemma StoredWindowsAreOrdered(req: Request, env: Env, store: Store)
    requires Advancing(env.calendar) && env.startClock <= env.endClock
    requires forall k :: k in store.subscriptions ==> store.subscriptions[k].startDate <= store.subscriptions[k].endDate
    ensures var o := Handle(req, env, store);
      forall k :: k in o.store.subscriptions ==> o.store.subscriptions[k].startDate <= o.store.subscriptions[k].endDate
  {
  }
}

=== FILE: wrappers.dfy ===
/** Optional values: the model's rendering of JavaScript's `undefined` / `null`. */
module Wrappers {

  /** A present (`Some`) or absent (`None`) value. */
  datatype Option<+T> = None | Some(value: T)
}
